=== FILE: README.md ===
# Parcel viewer: query building and paged retrieval

A Dafny model of the non-UI core of the Streamlit parcel viewer (`app.py`).
The viewer shows tax parcels from an ArcGIS FeatureServer for the current
map view. Between the map and the server sits a small pipeline, which this
project models and proves things about:

- **`BBox`** (module `Geo`): a map box in degrees.
  - `normalized()` sorts each axis pair.
  - `clamp()` clips longitude to [-180, 180] and latitude to [-90, 90].
  - `approx_area_deg2()` is the area of the normalized and clamped box.
  - `to_envelope()` gives the ArcGIS envelope.
  - Coordinates are `real`.
- **Query parameters** (module `ArcGis`): the parameter maps of the page query (`_arcgis_query_geojson`) and the count query (`_arcgis_count`).
  - Both carry the spatial filter exactly when a box is given.
  - The filter is always built from the normalized and clamped box.
  - The HTTP round trip is an oracle `Service = Request -> Reply`.
  - A reply is either a decoded body or a failure (an HTTP status error or a network error).
- **Count-then-paginate fetch** (module `Paging`): `fetch_features_geojson`.
  - It counts first, then plans `ceil(target / page_size)` page windows for `target = min(total, max_features)`.
  - It requests the windows in order and stops once enough features have arrived.
  - It cuts the result to `target`.
  - `FetchFeatures` returns, besides the result, the exact sequence of requests it sent.
- **Filters from `main`** (modules `Filters`, `Text`, `StringOrder`):
  - The SQL WHERE clause, in which user text is placed inside quoted literals with every `'` doubled.
  - The `outFields` list: the selected fields plus four mandatory ones, de-duplicated, sorted and joined with commas.
- **The viewport gate** (module `Viewport`):
  - Features load only when the zoom is at least the minimum and the visible box is at most 2 square degrees.
  - A polygon layer without a URL stops the run before either guard.
  - `ViewQuery` assembles the query `main` then hands to the fetch.

`Results` holds the `Option` and `Result` types.

A non-positive `max_features` still sends the count query; only the page loop is empty (`range(pages)` with `pages <= 0`). `FetchFeatures` models that: when the count is positive and `max_features <= 0`, it sends the count query alone and returns no features.

## Model

| member | source | states |
|---|---|---|
| Geo.Normalized | app.py:47-50 | The result has west <= east and south <= north, and each axis keeps its two values, possibly swapped. An already ordered box is returned unchanged, so normalizing twice is normalizing once. Width and height are the absolute differences of the input. |
| Geo.ClampTo | app.py:53-56 | `max(lo, min(hi, x))` lies in [lo, hi]. It is x when x is in range, lo below it and hi above it. |
| Geo.ClampMonotone | app.py:53-56 | Clamping to one interval preserves the order of two values. |
| Geo.Clamp | app.py:52-57 | Each coordinate is clamped on its own: west and east to [-180, 180], south and north to [-90, 90]. So every coordinate of the result is in range, a box already in range is unchanged (clamping is idempotent), and an ordered box stays ordered. |
| Geo.Canonical | app.py:60 | The normalized and clamped box is ordered and in range. For an in-range box it is just the normalized box, and a box that is already ordered and in range is its own canonical form. |
| Geo.CanonicalIdempotent | app.py:60 | Canonicalizing twice is canonicalizing once. |
| Geo.ApproxArea | app.py:59-61 | The area is between 0 and 360 * 180. It is 0 for a box of zero width or height. For an in-range box it is the product of the absolute side lengths. |
| Geo.AreaMonotone | app.py:59-61 | A box whose canonical form lies inside another's canonical form has no larger area. |
| Geo.ToEnvelope | app.py:44-45 | The envelope holds exactly the box's four coordinates, and an ordered, in-range box gives a valid envelope. |
| Geo.QueryEnvelopeValid | app.py:93-96 | The envelope passed to the HTTP call always has xmin <= xmax and ymin <= ymax, within the coordinate ranges. A box with swapped corners gives the same envelope. |
| ArcGis.NamesDistinct | app.py:83-100 | Distinct parameters have distinct wire names. |
| ArcGis.QueryEnvelope | app.py:92-96 | An envelope is computed iff a box is given. It is a valid envelope whose box is the normalized and clamped input box. |
| ArcGis.SpatialFilter | app.py:94-101 | The four spatial keys are present iff there is an envelope. `geometry` is that envelope, `geometryType` is `esriGeometryEnvelope`, `inSR` is "4326" and `spatialRel` is `esriSpatialRelIntersects`. |
| ArcGis.PageParams | app.py:83-101 | The page query's keys are the seven fixed ones plus the spatial ones iff there is an envelope. `f` is "geojson", `returnGeometry` "true" and `outSR` "4326". `where` and `outFields` pass through verbatim, record count and offset are as given. With an envelope, `geometry` is that envelope, `geometryType` "esriGeometryEnvelope", `inSR` "4326" and `spatialRel` "esriSpatialRelIntersects". |
| ArcGis.PageBase | app.py:83-91 | The fixed page parameters carry exactly the seven keys: `f` "geojson", `returnGeometry` "true", `outSR` "4326", and `where`, `outFields`, count and offset as given. |
| ArcGis.CountBase | app.py:111-115 | The fixed count parameters carry exactly `f` "json", `where` as given and `returnCountOnly` "true". |
| ArcGis.CountParams | app.py:111-125 | The count query's keys are `f`, `where` and `returnCountOnly` plus the spatial ones iff there is an envelope. `f` is "json", `where` passes through verbatim, `returnCountOnly` is "true". With an envelope, `geometry` is that envelope, `geometryType` "esriGeometryEnvelope", `inSR` "4326" and `spatialRel` "esriSpatialRelIntersects". |
| ArcGis.BasePartKept | app.py:92-101 | Adding the spatial filter to parameters without spatial keys keeps every existing entry and adds exactly the filter's keys. |
| ArcGis.PageRequest | app.py:82-103 | A page request goes to `<layer>/query`. Its keys are the page keys plus the spatial ones iff the query has a box, with `f` "geojson", `returnGeometry` "true", `outSR` "4326", the query's `where`, `outFields`, and the given count and offset. With a box, `geometry` is the envelope of the normalized and clamped box, `geometryType` "esriGeometryEnvelope", `inSR` "4326" and `spatialRel` "esriSpatialRelIntersects". |
| ArcGis.CountRequest | app.py:110-126 | The count request goes to `<layer>/query`. Its keys are the count keys plus the spatial ones iff the query has a box, with `f` "json", the query's `where` and `returnCountOnly` "true". With a box, `geometry` is the envelope of the normalized and clamped box, `geometryType` "esriGeometryEnvelope", `inSR` "4326" and `spatialRel` "esriSpatialRelIntersects". |
| ArcGis.RequestsFilterByCanonicalBox | app.py:92-125 | Both requests carry the spatial filter exactly when the query has a box. Then both send, as `geometry`, the envelope of the normalized and clamped box, which is valid. |
| ArcGis.SpatialPartKept | app.py:94-101 | Adding the spatial filter to parameters without spatial keys keeps the filter's entries exactly. |
| ArcGis.SameFilter | app.py:82-125 | A page request and the count request of one query use the same URL, the same `where`, and identical spatial parameters. |
| ArcGis.RequestsDependOnCanonicalBox | app.py:93 | Normalizing the box beforehand changes neither request. |
| ArcGis.CountFeatures | app.py:126-127 | A failed reply fails the count with the same error. A reply without `count` gives 0, and otherwise the count is the reply's `count`. |
| ArcGis.FeaturesOf | app.py:163 | A page reply's features are its `features` list, or none when the key is missing. |
| Paging.Target | app.py:147 | The target is at most the total and at most `max_features`, and equals one of them. |
| Paging.PageCount | app.py:148 | The page count n is the ceiling of target / page_size: (n - 1) * page_size < target <= n * page_size. |
| Paging.Plan | app.py:147-154 | There are max(0, n) windows, none iff target <= 0. Window i starts at i * page_size and asks for between 1 and page_size records, never past the target. Every window but the last is a full page. |
| Paging.PageWindowFits | app.py:152-154 | Each loop window is non-empty, at most a page, ends by the target, and is full unless it is the last. |
| Paging.PlanPrefixRequests | app.py:151-154 | The first k windows together ask for min(k * page_size, max(0, target)) records. |
| Paging.PlanCoversTarget | app.py:147-154 | All windows together ask for exactly max(0, target) records: nothing twice, nothing skipped. |
| Paging.OnePartialPage | app.py:147-154 | 1200 matches, a cap of 500 and pages of 1000 give one window (offset 0, count 500). |
| Paging.ThreePages | app.py:147-154 | 10000 matches, a cap of 2500 and pages of 1000 give windows at 0, 1000 and 2000 of 1000, 1000 and 500 records. |
| Paging.PlannedRequests | app.py:155-162 | Page request i asks for window i's count at window i's offset, with the query's filters. |
| Paging.Take | app.py:168 | `s[:n]` is a prefix of s, and for n >= 0 its length is the smaller of n and the length of s. |
| Paging.GatheredSnoc | app.py:163-164 | One more page appends that page's features to what was gathered. |
| Paging.GatheredPrefix | app.py:163-164 | `extend` only appends: the features of the first k pages stay, in order, at the front of everything gathered. |
| Paging.ShortBeforeSnoc | app.py:165-166 | Sending another page while still short of the target keeps "each page was sent while short". |
| Paging.ServedInFull | app.py:151-164 | If every planned page is answered with at least its count, the gathered features are at least the requested total. |
| Paging.ServedPagesSucceed | app.py:155-162 | If every planned page is answered in full, every page reply is a success. |
| Paging.ServedFetchIsExact | app.py:165-168 | In that case the cut result has exactly max(0, target) features. |
| Paging.RequestPages | app.py:150-166 | The pages sent are a prefix of the planned ones, in order, and the first page is always sent. All but the last succeeded, and each later page was sent only while the gathered features were short of the target. A failed reply aborts with its error. Otherwise the result is the replies' features concatenated in order, and either every page was sent or the target was reached. If every reply succeeds, so does the loop. |
| Paging.FetchPages | app.py:147-168 | For a known target, the pages sent are a prefix of the plan, each later one sent while short of the target. Every page before the last succeeded, so the fetch stops at the first failed page and returns that page's error. On success every page succeeded, and either all planned pages were sent or the target was reached. The result is the first `target` of the page features in request order, so at most max(0, target) features even when the server over-returns. A server answering every page in full yields exactly max(0, target). |
| Paging.FetchFeatures | app.py:143-168 | The count query goes first, and its failure aborts. A count <= 0 gives an empty collection with no page request. Otherwise the requests after the count are exactly those `FetchPages` promises for min(total, max_features): a planned prefix sent while short, stopping at the first failed page with its error, every page successful on success, all pages sent or target reached, and the result cut to the target. |
| Text.Join | app.py:315 | `sep.join(parts)` of no parts is empty, and otherwise begins with the first part. |
| Text.JoinRest | app.py:315 | `sep.join(parts)` is the first part followed by a tail that is empty for one part and begins with the separator otherwise. |
| Text.SplitJoin | app.py:338 | Splitting a comma-joined list at commas gives back the list when no item contains a comma. |
| Text.AsciiUpper | app.py:310 | Upper-casing keeps the length and maps each character on its own. |
| StringOrder.LessTotal | app.py:338 | Python's string order is total and asymmetric. |
| StringOrder.LessTransitive | app.py:338 | Python's string order is transitive. |
| StringOrder.Insert | app.py:338 | Inserting into a strictly sorted list keeps it strictly sorted and adds exactly the new element. |
| StringOrder.SortedDistinct | app.py:338 | `sorted(set(xs))` is strictly ascending and holds exactly the elements of xs. |
| StringOrder.SortedUnique | app.py:338 | Two strictly sorted lists with the same elements are equal. |
| Filters.EscapeBounds | app.py:308 | Text without quotes passes through `replace("'", "''")` unchanged, and escaping at most doubles the length. |
| Filters.EscapedIsQuoteSafe | app.py:308 | After `replace("'", "''")`, quotes occur only in doubled pairs. |
| Filters.ReadEscaped | app.py:308 | An escaped value followed by a closing quote is read by SQL's literal rules as exactly the value, and reading resumes right after that quote. User input cannot close the literal early. |
| Filters.LiteralIsEscaped | app.py:308 | Conversely, every literal SQL accepts is an escaped value followed by the closing quote. |
| Filters.EscapeAppend | app.py:308 | Escaping distributes over concatenation. |
| Filters.UpperEscapeCommute | app.py:310-311 | Upper-casing after escaping equals escaping after upper-casing, so the LIKE literal stays well quoted. |
| Filters.UpperEscapeChar | app.py:310 | Upper-casing one escaped character equals escaping the upper-cased character. |
| Filters.CountyClause | app.py:308 | The county test opens with `COUNTY_NAME = '`, and its literal reads back as exactly the county name, with nothing after the closing quote. |
| Filters.LikeClause | app.py:309-314 | A LIKE clause opens with `UPPER(<column>) LIKE '`, and its literal reads back as `%` + the upper-cased search + `%`, with nothing after the closing quote. |
| Filters.LikeLiteral | app.py:310-314 | Escaping `%<SEARCH>%` equals putting `%` around the escaped, upper-cased search. |
| Filters.WhereParts | app.py:308-314 | The county test comes first. An owner test and an address test are added, in that order, exactly for the non-empty search strings. |
| Filters.WhereClause | app.py:308-315 | With no searches the clause is the county test alone. With only an owner search, or only an address search, it is the county test and that search test joined by " AND ". With both, it is the county, owner and address tests joined by " AND ", in that order. |
| Filters.WhereAfterCounty | app.py:315 | The joined clause is the county test followed by a tail that is empty iff both searches are empty and otherwise begins with " AND ". |
| Filters.WhereTestsCountyFirst | app.py:308-315 | The WHERE clause opens with `COUNTY_NAME = '`, and its literal reads back as exactly the county name. The clause ends right there iff both searches are empty. |
| Filters.QuotedAfterPrefix | app.py:308 | A quoted literal behind a fixed prefix reads back as the escaped value. |
| Filters.MandatoryWithoutComma | app.py:338 | No mandatory field name contains a comma. |
| Filters.OutFieldList | app.py:338 | The field list is strictly sorted and holds exactly the selected fields and the four mandatory ones. |
| Filters.OutFieldsCanonical | app.py:338 | `outFields` depends only on which fields are selected, not on their order or repeats. |
| Filters.OutFields | app.py:338 | Splitting `outFields` at commas gives back the sorted distinct field list, provided no selected name holds a comma. |
| Filters.JoinedFieldsSplit | app.py:338 | The same for the comma-joined field list: no field, mandatory or selected, contains a comma, so splitting undoes joining. |
| Viewport.ShouldFetch | app.py:330-336 | The view is turned away as too far zoomed out iff zoom < min_zoom. It is turned away as too large iff zoom >= min_zoom, a box is present and its area exceeds 2.0. Otherwise it loads. |
| Viewport.ViewQuery | app.py:244-348 | A query is issued iff the layer URL is non-empty and the gate lets the view through. In centroid mode the URL is the public default, so only a polygon layer without a URL is stopped (lines 291-293). The query carries the layer URL, the box, the WHERE clause built from the county and searches, and the `outFields` built from the selected fields. |
| Viewport.ZoomingInKeepsLoading | app.py:330-336 | A view that loads still loads after zooming in further to a box inside the old one. |
| Viewport.FlatViewLoads | app.py:333 | A box of zero width or height never trips the area guard. |
| Viewport.GateExamples | app.py:266-336 | At the default minimum zoom of 13, zoom 12 is turned away, a 5 x 1 degree box is too large, and a view around Schenectady loads. |

## Left out

- Streamlit and folium: sidebar widgets, columns, metrics, the data preview, `make_map`, `add_points_layer` and popup HTML. This is user interface without logic to model; only the decisions `main` takes are modelled.
- `st.stop()` is modelled as the gate's `Decision` and `ViewQuery` returning `None`. The messages shown are left out.
- `EscapeQuotes` and `Gathered` are plain definitions; their properties are stated by the lemmas about them (`EscapeBounds`, `EscapedIsQuoteSafe`, `ReadEscaped`, `GatheredSnoc`, `GatheredPrefix`).
- Query-string encoding by `requests` is not modelled: a request's `geometry` is the envelope passed to the HTTP call. `requests` encodes a dict value by iterating over its keys, so the wire probably carries `geometry=xmin&geometry=ymin&geometry=xmax&geometry=ymax` without the coordinates. That is a likely defect outside this model.
- `_http_get_json`, `requests`, timeouts and JSON decoding: the service is an oracle from request to reply. A reply is a decoded `Body` or a `FetchError` (HTTP status or network error), and both error kinds abort the fetch as in `main`.
- `int(data.get("count", 0))`: the count is an integer already. A non-integer `count` would make `int()` raise or truncate, and that is not modelled.
- A `features` key that is present but not a list is not modelled. A missing key gives no features.
- `@st.cache_data(ttl=300)` memoization lives in the library decorator, so there is no logic here to model.
- `bbox_from_folium_state`: probing dynamic dictionaries of the map component's JavaScript state and `float()` parsing. The gate takes its result, an optional box, as input.
- IEEE-754 floats: coordinates and areas are `real`, so NaN, infinities and rounding in the area product are not modelled. `math.ceil(target / page_size)` is exact integer ceiling division.
- Paging.FetchFeatures: requires page_size > 0. The only caller uses the default 1000, and Python raises `ZeroDivisionError` for 0.
- Text.AsciiUpper: models `str.upper()` on ASCII letters only. Unicode case mappings, some of which change the length, are not modelled.
- Filters.CountyClause: app.py:308 writes `\"` inside an f-string replacement field, which Python does not accept as written. The model follows the evident intent, `county_name.replace("'", "''")`, as lines 310 and 313 write it for the searches.
- `.strip()` on the sidebar inputs: the model takes the already stripped strings.
- Filters.LikeClause: states the pattern read back, in which `%` and `_` from the search text remain LIKE wildcards. The source does not escape them, so no claim is made that the search is matched literally.
- The `features` list and the rest of the GeoJSON collection are not modelled beyond their feature sequence. The `"type": "FeatureCollection"` wrapper is constant.

=== FILE: arcgis.dfy ===
/** The two ArcGIS FeatureServer queries the viewer sends (`_arcgis_query_geojson`
    and `_arcgis_count` in app.py), with the HTTP round trip abstracted as an
    oracle function from request to reply. */
module ArcGis {
  import opened Results
  import opened Geo

  /** One query-string value: a plain string, an integer, or an envelope. */
  datatype ParamValue = Text(text: string) | Number(n: int) | Shape(envelope: Envelope)

  /** The query-string parameters the viewer sends. */
  datatype Param =
    | Format | Where | OutFields | ReturnGeometry | OutSR | ResultRecordCount | ResultOffset
    | ReturnCountOnly | Geometry | GeometryType | InSR | SpatialRel

  /** The parameter's name on the wire. */
  function Name(k: Param): string {
    match k
    case Format => "f"
    case Where => "where"
    case OutFields => "outFields"
    case ReturnGeometry => "returnGeometry"
    case OutSR => "outSR"
    case ResultRecordCount => "resultRecordCount"
    case ResultOffset => "resultOffset"
    case ReturnCountOnly => "returnCountOnly"
    case Geometry => "geometry"
    case GeometryType => "geometryType"
    case InSR => "inSR"
    case SpatialRel => "spatialRel"
  }

  /** Distinct parameters have distinct wire names, so a parameter map
      encodes to a query string without collisions. */
  lemma NamesDistinct(a: Param, b: Param)
    requires a != b
    ensures Name(a) != Name(b)
  {
  }

  type Params = map<Param, ParamValue>

  /** An HTTP GET of `url` with the given query parameters. */
  datatype Request = Request(url: string, params: Params)

  /** A GeoJSON feature: attribute values by field name and the geometry's coordinates. */
  datatype Feature = Feature(properties: map<string, string>, coordinates: seq<(real, real)>)

  /** The parts of a decoded JSON reply the viewer reads; a key the reply lacks is None. */
  datatype Body = Body(count: Option<int>, features: Option<seq<Feature>>)

  /** `requests.HTTPError` (a non-success status) or any other `requests.RequestException`. */
  datatype FetchError = HttpError(status: int) | NetworkError

  datatype Reply = Ok(body: Body) | Failed(error: FetchError)

  /** The remote service: what it answers to each request. */
  type Service = Request -> Reply

  /** Which layer to query and how: the arguments `fetch_features_geojson` passes on to every query. */
  datatype FeatureQuery = FeatureQuery(layerUrl: string, where: string, outFields: string, bbox: Option<BBox>)

  const SpatialKeys: set<Param> := {Geometry, GeometryType, InSR, SpatialRel}
  const PageKeys: set<Param> :=
    {Format, Where, OutFields, ReturnGeometry, OutSR, ResultRecordCount, ResultOffset}
  const CountKeys: set<Param> := {Format, Where, ReturnCountOnly}

  /** Spatial-filter parameters are present iff the query has a box. */
  predicate HasSpatialFilter(p: Params) {
    SpatialKeys <= p.Keys
  }

  function QueryUrl(layerUrl: string): string {
    layerUrl + "/query"
  }

  /** `bbox.normalized().clamp().to_envelope()` when a box is given: the
      envelope both queries filter by. */
  function QueryEnvelope(bbox: Option<BBox>): (e: Option<Envelope>)
    ensures e.Some? <==> bbox.Some?
    ensures bbox.Some? ==> ValidEnvelope(e.value)
    ensures bbox.Some? ==> EnvelopeBox(e.value) == Canonical(bbox.value)
  {
    match bbox
    case None => None
    case Some(b) => QueryEnvelopeValid(b); Some(ToEnvelope(Canonical(b)))
  }

  /** The spatial-filter parameters both queries add when there is an envelope. */
  function SpatialFilter(envelope: Option<Envelope>): (p: Params)
    ensures p.Keys == (if envelope.Some? then SpatialKeys else {})
    ensures envelope.Some? ==> p[Geometry] == Shape(envelope.value)
    ensures envelope.Some? ==> p[GeometryType] == Text("esriGeometryEnvelope") && p[InSR] == Text("4326")
    ensures envelope.Some? ==> p[SpatialRel] == Text("esriSpatialRelIntersects")
  {
    match envelope
    case None => map[]
    case Some(e) =>
      map[Geometry := Shape(e),
          GeometryType := Text("esriGeometryEnvelope"),
          InSR := Text("4326"),
          SpatialRel := Text("esriSpatialRelIntersects")]
  }

  /** Parameters of one page request, returning GeoJSON, given the query
      envelope (if any) already computed from the box. */
  function PageParams(where: string, outFields: string, envelope: Option<Envelope>, recordCount: int, offset: int): (p: Params)
    ensures p.Keys == PageKeys + (if envelope.Some? then SpatialKeys else {})
    ensures p[Format] == Text("geojson") && p[ReturnGeometry] == Text("true") && p[OutSR] == Text("4326")
    ensures p[Where] == Text(where) && p[OutFields] == Text(outFields)
    ensures p[ResultRecordCount] == Number(recordCount) && p[ResultOffset] == Number(offset)
    ensures envelope.Some? ==> p[Geometry] == Shape(envelope.value)
    ensures envelope.Some? ==>
              && p[GeometryType] == Text("esriGeometryEnvelope") && p[InSR] == Text("4326")
              && p[SpatialRel] == Text("esriSpatialRelIntersects")
  {
    var base, spatial := PageBase(where, outFields, recordCount, offset), SpatialFilter(envelope);
    BasePartKept(base, envelope);
    base + spatial
  }

  /** The parameters every page request carries, with or without a box. */
  function PageBase(where: string, outFields: string, recordCount: int, offset: int): (p: Params)
    ensures p.Keys == PageKeys
    ensures p[Format] == Text("geojson") && p[ReturnGeometry] == Text("true") && p[OutSR] == Text("4326")
    ensures p[Where] == Text(where) && p[OutFields] == Text(outFields)
    ensures p[ResultRecordCount] == Number(recordCount) && p[ResultOffset] == Number(offset)
  {
    map[Format := Text("geojson"),
        Where := Text(where),
        OutFields := Text(outFields),
        ReturnGeometry := Text("true"),
        OutSR := Text("4326"),
        ResultRecordCount := Number(recordCount),
        ResultOffset := Number(offset)]
  }

  /** The parameters every count request carries, with or without a box. */
  function CountBase(where: string): (p: Params)
    ensures p.Keys == CountKeys
    ensures p[Format] == Text("json") && p[Where] == Text(where) && p[ReturnCountOnly] == Text("true")
  {
    map[Format := Text("json"),
        Where := Text(where),
        ReturnCountOnly := Text("true")]
  }

  /** Parameters of the count-only request, given the query envelope (if any). */
  function CountParams(where: string, envelope: Option<Envelope>): (p: Params)
    ensures p.Keys == CountKeys + (if envelope.Some? then SpatialKeys else {})
    ensures p[Format] == Text("json")
    ensures p[Where] == Text(where) && p[ReturnCountOnly] == Text("true")
    ensures envelope.Some? ==> p[Geometry] == Shape(envelope.value)
    ensures envelope.Some? ==>
              && p[GeometryType] == Text("esriGeometryEnvelope") && p[InSR] == Text("4326")
              && p[SpatialRel] == Text("esriSpatialRelIntersects")
  {
    var base, spatial := CountBase(where), SpatialFilter(envelope);
    BasePartKept(base, envelope);
    base + spatial
  }

  /** `_arcgis_query_geojson`'s request: `<layer>/query` with the page parameters. */
  function PageRequest(q: FeatureQuery, recordCount: int, offset: int): (r: Request)
    ensures r.url == q.layerUrl + "/query"
    ensures r.params.Keys == PageKeys + (if q.bbox.Some? then SpatialKeys else {})
    ensures r.params[Format] == Text("geojson") && r.params[ReturnGeometry] == Text("true")
    ensures r.params[OutSR] == Text("4326")
    ensures r.params[Where] == Text(q.where) && r.params[OutFields] == Text(q.outFields)
    ensures r.params[ResultRecordCount] == Number(recordCount) && r.params[ResultOffset] == Number(offset)
    ensures q.bbox.Some? ==> r.params[Geometry] == Shape(ToEnvelope(Canonical(q.bbox.value)))
    ensures q.bbox.Some? ==>
              && r.params[GeometryType] == Text("esriGeometryEnvelope") && r.params[InSR] == Text("4326")
              && r.params[SpatialRel] == Text("esriSpatialRelIntersects")
  {
    Request(QueryUrl(q.layerUrl), PageParams(q.where, q.outFields, QueryEnvelope(q.bbox), recordCount, offset))
  }

  /** `_arcgis_count`'s request: `<layer>/query` with the count parameters. */
  function CountRequest(q: FeatureQuery): (r: Request)
    ensures r.url == q.layerUrl + "/query"
    ensures r.params.Keys == CountKeys + (if q.bbox.Some? then SpatialKeys else {})
    ensures r.params[Format] == Text("json")
    ensures r.params[Where] == Text(q.where) && r.params[ReturnCountOnly] == Text("true")
    ensures q.bbox.Some? ==> r.params[Geometry] == Shape(ToEnvelope(Canonical(q.bbox.value)))
    ensures q.bbox.Some? ==>
              && r.params[GeometryType] == Text("esriGeometryEnvelope") && r.params[InSR] == Text("4326")
              && r.params[SpatialRel] == Text("esriSpatialRelIntersects")
  {
    Request(QueryUrl(q.layerUrl), CountParams(q.where, QueryEnvelope(q.bbox)))
  }

  /** Both queries carry the spatial filter exactly when a box is given, and
      then filter by the envelope of the normalized and clamped box, which
      is a valid envelope. */
  lemma RequestsFilterByCanonicalBox(q: FeatureQuery, recordCount: int, offset: int)
    ensures HasSpatialFilter(PageRequest(q, recordCount, offset).params) <==> q.bbox.Some?
    ensures HasSpatialFilter(CountRequest(q).params) <==> q.bbox.Some?
    ensures q.bbox.Some? ==>
              && PageRequest(q, recordCount, offset).params[Geometry] == Shape(ToEnvelope(Canonical(q.bbox.value)))
              && CountRequest(q).params[Geometry] == Shape(ToEnvelope(Canonical(q.bbox.value)))
              && ValidEnvelope(ToEnvelope(Canonical(q.bbox.value)))
  {
  }

  /** The page and count requests of one query filter identically: same
      url, same `where`, same spatial parameters. */
  lemma SameFilter(q: FeatureQuery, recordCount: int, offset: int)
    ensures PageRequest(q, recordCount, offset).url == CountRequest(q).url
    ensures PageRequest(q, recordCount, offset).params[Where] == CountRequest(q).params[Where]
    ensures forall k | k in SpatialKeys ::
              k in PageRequest(q, recordCount, offset).params <==> k in CountRequest(q).params
    ensures forall k | k in SpatialKeys && k in CountRequest(q).params ::
              PageRequest(q, recordCount, offset).params[k] == CountRequest(q).params[k]
  {
    var envelope := QueryEnvelope(q.bbox);
    SpatialPartKept(PageBase(q.where, q.outFields, recordCount, offset), envelope);
    SpatialPartKept(CountBase(q.where), envelope);
  }

  /** Adding the spatial filter to parameters without spatial keys leaves
      the filter's entries exactly as they were. */
  lemma SpatialPartKept(base: Params, envelope: Option<Envelope>)
    requires base.Keys !! SpatialKeys
    ensures forall k | k in SpatialKeys :: k in base + SpatialFilter(envelope) <==> k in SpatialFilter(envelope)
    ensures forall k | k in SpatialFilter(envelope) :: (base + SpatialFilter(envelope))[k] == SpatialFilter(envelope)[k]
  {
  }

  /** Adding the spatial filter to parameters without spatial keys keeps
      every existing entry and adds exactly the filter's keys. */
  lemma BasePartKept(base: Params, envelope: Option<Envelope>)
    requires base.Keys !! SpatialKeys
    ensures (base + SpatialFilter(envelope)).Keys == base.Keys + SpatialFilter(envelope).Keys
    ensures forall k | k in base :: (base + SpatialFilter(envelope))[k] == base[k]
  {
  }

  /** Only the canonical box matters: a box and its normalized form yield the same requests. */
  lemma RequestsDependOnCanonicalBox(q: FeatureQuery, recordCount: int, offset: int)
    requires q.bbox.Some?
    ensures var q' := q.(bbox := Some(Normalized(q.bbox.value)));
            PageRequest(q', recordCount, offset) == PageRequest(q, recordCount, offset)
            && CountRequest(q') == CountRequest(q)
  {
    assert Canonical(Normalized(q.bbox.value)) == Canonical(q.bbox.value);
  }

  /** `_arcgis_count`: the reply's `count`, 0 when the reply has none; a
      failed request fails the count. */
  function CountFeatures(service: Service, q: FeatureQuery): (r: Result<int, FetchError>)
    ensures service(CountRequest(q)).Failed? <==> r.Failure?
    ensures r.Failure? ==> r.error == service(CountRequest(q)).error
    ensures service(CountRequest(q)).Ok? && service(CountRequest(q)).body.count.None? ==> r == Success(0)
    ensures service(CountRequest(q)).Ok? && service(CountRequest(q)).body.count.Some? ==>
              r == Success(service(CountRequest(q)).body.count.value)
  {
    match service(CountRequest(q))
    case Failed(e) => Failure(e)
    case Ok(body) => Success(body.count.GetOr(0))
  }

  /** `chunk.get("features", [])`: the features of a page reply, none when the key is missing. */
  function FeaturesOf(reply: Reply): (fs: seq<Feature>)
    requires reply.Ok?
    ensures reply.body.features.Some? ==> fs == reply.body.features.value
    ensures reply.body.features.None? ==> fs == []
  {
    reply.body.features.GetOr([])
  }
}

=== FILE: filters.dfy ===
/** The attribute filter and field list `main` in app.py builds for the
    feature queries: the WHERE clause with its quoted user input, and the
    comma-joined `outFields` list. */
module Filters {
  import opened Results
  import opened Text
  import opened StringOrder

  const Quote: char := '\''

  /** One character of `s.replace("'", "''")`. */
  function EscapeChar(ch: char): string {
    if ch == Quote then [Quote, Quote] else [ch]
  }

  /** `s.replace("'", "''")`: every single quote doubled. */
  function EscapeQuotes(s: string): string {
    if s == [] then [] else EscapeChar(s[0]) + EscapeQuotes(s[1..])
  }

  /** Text without quotes passes through unchanged, and escaping at most
      doubles the length. */
  lemma {:induction false} EscapeBounds(s: string)
    ensures |s| <= |EscapeQuotes(s)| <= 2 * |s|
    ensures Quote !in s ==> EscapeQuotes(s) == s
  {
    if s != [] {
      EscapeBounds(s[1..]);
      assert s == [s[0]] + s[1..];
    }
  }

  /** Text that may stand between the quotes of an SQL string literal:
      quotes occur only in doubled pairs. */
  predicate QuoteSafe(s: string)
    decreases |s|
  {
    if s == [] then true
    else if s[0] != Quote then QuoteSafe(s[1..])
    else 2 <= |s| && s[1] == Quote && QuoteSafe(s[2..])
  }

  /** Escaped text never holds a lone quote. */
  lemma {:induction false} EscapedIsQuoteSafe(s: string)
    ensures QuoteSafe(EscapeQuotes(s))
  {
    if s != [] {
      EscapedIsQuoteSafe(s[1..]);
      var rest := EscapeQuotes(s[1..]);
      if s[0] == Quote {
        assert ([Quote, Quote] + rest)[2..] == rest;
      } else {
        assert ([s[0]] + rest)[1..] == rest;
      }
    }
  }

  /** How an SQL engine reads a string literal whose opening quote has been
      consumed: a doubled quote stands for one quote, a lone quote closes
      the literal. Returns the literal's value and the text after it, or
      None when the literal is never closed. */
  function ReadLiteral(s: string): Option<(string, string)>
    decreases |s|
  {
    if s == [] then None
    else if s[0] == Quote then
      if 2 <= |s| && s[1] == Quote then
        match ReadLiteral(s[2..])
        case None => None
        case Some((value, rest)) => Some(([Quote] + value, rest))
      else Some(([], s[1..]))
    else
      match ReadLiteral(s[1..])
      case None => None
      case Some((value, rest)) => Some(([s[0]] + value, rest))
  }

  /** Escaped text followed by a closing quote reads back as exactly the
      original text, and reading resumes right after that quote: user input
      cannot end the literal early. */
  lemma {:induction false} ReadEscaped(v: string, tail: string)
    requires tail == [] || tail[0] != Quote
    ensures ReadLiteral(EscapeQuotes(v) + [Quote] + tail) == Some((v, tail))
  {
    var s := EscapeQuotes(v) + [Quote] + tail;
    if v == [] {
      assert s == [Quote] + tail;
    } else {
      ReadEscaped(v[1..], tail);
      var inner := EscapeQuotes(v[1..]) + [Quote] + tail;
      assert s == EscapeChar(v[0]) + inner;
      if v[0] == Quote {
        assert s == [Quote, Quote] + inner;
        assert s[2..] == inner;
      } else {
        assert s == [v[0]] + inner;
        assert s[1..] == inner;
      }
      assert v == [v[0]] + v[1..];
    }
  }

  /** Conversely, every literal the reader accepts is escaped text followed
      by the closing quote. */
  lemma {:induction false} LiteralIsEscaped(s: string)
    requires ReadLiteral(s).Some?
    ensures var (value, rest) := ReadLiteral(s).value;
            s == EscapeQuotes(value) + [Quote] + rest
    decreases |s|
  {
    var (value, rest) := ReadLiteral(s).value;
    if s[0] == Quote {
      if 2 <= |s| && s[1] == Quote {
        LiteralIsEscaped(s[2..]);
        assert value[1..] == ReadLiteral(s[2..]).value.0;
        assert s == [Quote, Quote] + s[2..];
      } else {
        assert s == [Quote] + s[1..];
      }
    } else {
      LiteralIsEscaped(s[1..]);
      assert value[1..] == ReadLiteral(s[1..]).value.0;
      assert s == [s[0]] + s[1..];
    }
  }

  /** Escaping works character by character, so it distributes over concatenation. */
  lemma {:induction false} EscapeAppend(a: string, b: string)
    ensures EscapeQuotes(a + b) == EscapeQuotes(a) + EscapeQuotes(b)
  {
    if a != [] {
      EscapeAppend(a[1..], b);
      assert (a + b)[0] == a[0];
      assert (a + b)[1..] == a[1..] + b;
    } else {
      assert a + b == b;
    }
  }

  /** Upper-casing leaves quotes alone and turns no other character into
      one, so it commutes with escaping. */
  lemma {:induction false} UpperEscapeCommute(s: string)
    ensures AsciiUpper(EscapeQuotes(s)) == EscapeQuotes(AsciiUpper(s))
  {
    if s != [] {
      var rest := EscapeQuotes(s[1..]);
      UpperEscapeCommute(s[1..]);
      UpperAppend(EscapeChar(s[0]), rest);
      UpperEscapeChar(s[0]);
      var upper := AsciiUpper(s);
      assert upper[0] == UpperChar(s[0]) && upper[1..] == AsciiUpper(s[1..]);
      assert EscapeQuotes(upper) == EscapeChar(upper[0]) + EscapeQuotes(upper[1..]);
    }
  }

  lemma UpperEscapeChar(ch: char)
    ensures AsciiUpper(EscapeChar(ch)) == EscapeChar(UpperChar(ch))
  {
  }

  const CountyPrefix: string := "COUNTY_NAME = '"

  /** `COUNTY_NAME = '<county>'`. */
  function CountyClause(county: string): (c: string)
    ensures |CountyPrefix| <= |c| && c[..|CountyPrefix|] == CountyPrefix
    ensures ReadLiteral(c[|CountyPrefix|..]) == Some((county, ""))
  {
    QuotedAfterPrefix(CountyPrefix, county, "");
    assert CountyPrefix + EscapeQuotes(county) + [Quote] + "" == CountyPrefix + EscapeQuotes(county) + [Quote];
    CountyPrefix + EscapeQuotes(county) + [Quote]
  }

  /** The text before a LIKE clause's pattern literal. */
  function LikePrefix(column: string): string {
    "UPPER(" + column + ") LIKE '"
  }

  /** `UPPER(<column>) LIKE '%<SEARCH>%'`: escaped first, then upper-cased.
      Its literal reads back as `%<upper-cased search>%`: the search text is
      matched as given (its `%` and `_` stay wildcards). */
  function LikeClause(column: string, search: string): (c: string)
    ensures |LikePrefix(column)| <= |c| && c[..|LikePrefix(column)|] == LikePrefix(column)
    ensures ReadLiteral(c[|LikePrefix(column)|..]) == Some(("%" + AsciiUpper(search) + "%", ""))
  {
    LikeLiteral(search);
    QuotedAfterPrefix(LikePrefix(column), "%" + AsciiUpper(search) + "%", "");
    var c := LikePrefix(column) + EscapeQuotes("%" + AsciiUpper(search) + "%") + [Quote];
    assert c + "" == c;
    c
  }

  /** The pattern literal: escaping `%<SEARCH>%` is the same as putting `%`
      around the escaped, upper-cased search. */
  lemma LikeLiteral(search: string)
    ensures EscapeQuotes("%" + AsciiUpper(search) + "%") == "%" + AsciiUpper(EscapeQuotes(search)) + "%"
  {
    UpperEscapeCommute(search);
    EscapeAppend("%", AsciiUpper(search));
    EscapeAppend("%" + AsciiUpper(search), "%");
    assert EscapeQuotes("%") == "%";
  }

  /** The clauses of lines 308-314, in order: the county test always, then
      an owner and an address test for each non-empty search string. */
  function WhereParts(county: string, owner: string, addr: string): (parts: seq<string>)
    ensures |parts| == 1 + (if owner != "" then 1 else 0) + (if addr != "" then 1 else 0)
    ensures parts[0] == CountyClause(county)
    ensures owner != "" ==> parts[1] == LikeClause("PRIMARY_OWNER", owner)
    ensures addr != "" ==> parts[|parts| - 1] == LikeClause("PARCEL_ADDR", addr)
  {
    [CountyClause(county)]
    + (if owner != "" then [LikeClause("PRIMARY_OWNER", owner)] else [])
    + (if addr != "" then [LikeClause("PARCEL_ADDR", addr)] else [])
  }

  /** `" AND ".join(where_parts)`. */
  function WhereClause(county: string, owner: string, addr: string): (w: string)
    ensures owner == "" && addr == "" ==> w == CountyClause(county)
    ensures owner != "" && addr == "" ==>
              w == CountyClause(county) + " AND " + LikeClause("PRIMARY_OWNER", owner)
    ensures owner == "" && addr != "" ==>
              w == CountyClause(county) + " AND " + LikeClause("PARCEL_ADDR", addr)
    ensures owner != "" && addr != "" ==>
              w == CountyClause(county) + " AND " + LikeClause("PRIMARY_OWNER", owner)
                   + " AND " + LikeClause("PARCEL_ADDR", addr)
  {
    var parts := WhereParts(county, owner, addr);
    if owner != "" && addr != "" then
      var owned, addressed := LikeClause("PRIMARY_OWNER", owner), LikeClause("PARCEL_ADDR", addr);
      assert parts == [CountyClause(county), owned, addressed];
      assert parts[1..] == [owned, addressed] && parts[1..][1..] == [addressed];
      assert Join(" AND ", [owned, addressed]) == owned + " AND " + addressed;
      Join(" AND ", parts)
    else if owner != "" || addr != "" then
      var searched := if owner != "" then LikeClause("PRIMARY_OWNER", owner) else LikeClause("PARCEL_ADDR", addr);
      assert parts == [CountyClause(county), searched];
      assert parts[1..] == [searched];
      assert Join(" AND ", [searched]) == searched;
      Join(" AND ", parts)
    else
      Join(" AND ", parts)
  }

  /** The WHERE clause opens with the county test, whose literal reads back
      as exactly the county name; the clause ends there iff both searches are empty. */
  lemma WhereTestsCountyFirst(county: string, owner: string, addr: string)
    ensures var w := WhereClause(county, owner, addr);
            && |CountyPrefix| <= |w|
            && w[..|CountyPrefix|] == CountyPrefix
            && ReadLiteral(w[|CountyPrefix|..]).Some?
            && ReadLiteral(w[|CountyPrefix|..]).value.0 == county
            && (ReadLiteral(w[|CountyPrefix|..]).value.1 == "" <==> owner == "" && addr == "")
  {
    var tail := WhereAfterCounty(county, owner, addr);
    QuotedAfterPrefix(CountyPrefix, county, tail);
  }

  /** A quoted literal behind any fixed prefix reads back as the escaped value. */
  lemma QuotedAfterPrefix(prefix: string, v: string, tail: string)
    requires tail == [] || tail[0] != Quote
    ensures var w := prefix + EscapeQuotes(v) + [Quote] + tail;
            && |prefix| <= |w|
            && w[..|prefix|] == prefix
            && ReadLiteral(w[|prefix|..]) == Some((v, tail))
  {
    var literal := EscapeQuotes(v) + [Quote] + tail;
    ReadEscaped(v, tail);
    PrefixSplit(prefix, literal);
    assert prefix + EscapeQuotes(v) + [Quote] + tail == prefix + literal;
  }

  lemma PrefixSplit(prefix: string, rest: string)
    ensures (prefix + rest)[..|prefix|] == prefix && (prefix + rest)[|prefix|..] == rest
  {
  }

  /** What follows the county test in the WHERE clause: nothing, or the
      search tests after an " AND ". */
  function WhereAfterCounty(county: string, owner: string, addr: string): (tail: string)
    ensures WhereClause(county, owner, addr) == CountyClause(county) + tail
    ensures tail == "" <==> owner == "" && addr == ""
    ensures tail == "" || tail[0] == ' '
    ensures tail != "" ==> |" AND "| <= |tail| && tail[..|" AND "|] == " AND "
  {
    var parts := WhereParts(county, owner, addr);
    var tail := JoinRest(" AND ", parts);
    assert tail != "" ==> tail[0] == " AND "[0];
    tail
  }

  /** The fields every query asks for, whatever the user selected. */
  const MandatoryFields: seq<string> := ["PARCEL_ADDR", "PRIMARY_OWNER", "SBL", "PRINT_KEY"]

  lemma MandatoryWithoutComma(f: string)
    requires f in MandatoryFields
    ensures ',' !in f
  {
    var i :| 0 <= i < |MandatoryFields| && MandatoryFields[i] == f;
  }

  /** `sorted(set(popup_fields + [...mandatory...]))`. */
  function OutFieldList(selected: seq<string>): (fields: seq<string>)
    ensures StrictlySorted(fields)
    ensures forall f :: f in fields <==> f in selected || f in MandatoryFields
  {
    SortedDistinct(selected + MandatoryFields)
  }

  /** The `outFields` parameter: the field list joined by commas. The
      server, splitting it at commas, gets back exactly the sorted distinct
      field list, provided no selected name contains a comma. */
  function OutFields(selected: seq<string>): (r: string)
    ensures (forall i | 0 <= i < |selected| :: ',' !in selected[i]) ==>
              Split(',', r) == OutFieldList(selected)
  {
    if forall i | 0 <= i < |selected| :: ',' !in selected[i] then
      JoinedFieldsSplit(selected);
      Join(",", OutFieldList(selected))
    else
      Join(",", OutFieldList(selected))
  }

  /** Only which fields are selected matters, not their order or repeats. */
  lemma OutFieldsCanonical(a: seq<string>, b: seq<string>)
    requires forall f :: f in a <==> f in b
    ensures OutFields(a) == OutFields(b)
  {
    SortedUnique(OutFieldList(a), OutFieldList(b));
  }

  lemma JoinedFieldsSplit(selected: seq<string>)
    requires forall i | 0 <= i < |selected| :: ',' !in selected[i]
    ensures Split(',', Join(",", OutFieldList(selected))) == OutFieldList(selected)
  {
    var fields := OutFieldList(selected);
    assert MandatoryFields[2] in fields;
    forall i | 0 <= i < |fields|
      ensures ',' !in fields[i]
    {
      if fields[i] !in selected {
        MandatoryWithoutComma(fields[i]);
      }
    }
    SplitJoin(',', fields);
  }
}

=== FILE: geo.dfy ===
/** The map viewport rectangle (`BBox` in app.py) and its envelope form. */
module Geo {

  /** A longitude/latitude rectangle in degrees as the map reports it: the
      corners may come in either order and may lie outside the globe. */
  datatype BBox = BBox(west: real, south: real, east: real, north: real)

  /** The spatial-filter rectangle of an ArcGIS query (`to_envelope`). */
  datatype Envelope = Envelope(xmin: real, ymin: real, xmax: real, ymax: real)

  const MinLon: real := -180.0
  const MaxLon: real := 180.0
  const MinLat: real := -90.0
  const MaxLat: real := 90.0

  /** West is not east of east, and south is not north of north. */
  predicate Ordered(b: BBox) {
    b.west <= b.east && b.south <= b.north
  }

  /** Every coordinate lies on the globe. */
  predicate InRange(b: BBox) {
    && MinLon <= b.west <= MaxLon && MinLon <= b.east <= MaxLon
    && MinLat <= b.south <= MaxLat && MinLat <= b.north <= MaxLat
  }

  /** An envelope the server can use as-is: ordered and on the globe. */
  predicate ValidEnvelope(e: Envelope) {
    && MinLon <= e.xmin <= e.xmax <= MaxLon
    && MinLat <= e.ymin <= e.ymax <= MaxLat
  }

  function Abs(x: real): real {
    if x < 0.0 then -x else x
  }

  function Max(a: real, b: real): real {
    if a < b then b else a
  }

  function Min(a: real, b: real): real {
    if a < b then a else b
  }

  /** `sorted([a, b])`: the smaller value first, the same two values. */
  function SortPair(a: real, b: real): (r: (real, real))
    ensures r.0 <= r.1
    ensures (r.0 == a && r.1 == b) || (r.0 == b && r.1 == a)
  {
    if a <= b then (a, b) else (b, a)
  }

  /** `normalized()`: sorts each axis pair independently. */
  function Normalized(b: BBox): (r: BBox)
    ensures Ordered(r)
    ensures (r.west == b.west && r.east == b.east) || (r.west == b.east && r.east == b.west)
    ensures (r.south == b.south && r.north == b.north) || (r.south == b.north && r.north == b.south)
    ensures Ordered(b) ==> r == b
    ensures r.east - r.west == Abs(b.east - b.west)
    ensures r.north - r.south == Abs(b.north - b.south)
  {
    var (w, e) := SortPair(b.west, b.east);
    var (s, n) := SortPair(b.south, b.north);
    BBox(w, s, e, n)
  }

  /** `max(lo, min(hi, x))`: the point of [lo, hi] nearest to x. */
  function ClampTo(lo: real, hi: real, x: real): (r: real)
    requires lo <= hi
    ensures lo <= r <= hi
    ensures lo <= x <= hi ==> r == x
    ensures x < lo ==> r == lo
    ensures hi < x ==> r == hi
  {
    Max(lo, Min(hi, x))
  }

  /** `clamp()`: clips each coordinate to its range, without reordering. */
  function Clamp(b: BBox): (r: BBox)
    ensures r.west == ClampTo(MinLon, MaxLon, b.west) && r.east == ClampTo(MinLon, MaxLon, b.east)
    ensures r.south == ClampTo(MinLat, MaxLat, b.south) && r.north == ClampTo(MinLat, MaxLat, b.north)
    ensures InRange(r)
    ensures InRange(b) ==> r == b
    ensures Ordered(b) ==> Ordered(r)
  {
    var r := BBox(ClampTo(MinLon, MaxLon, b.west), ClampTo(MinLat, MaxLat, b.south),
                  ClampTo(MinLon, MaxLon, b.east), ClampTo(MinLat, MaxLat, b.north));
    ClampMonotone(MinLon, MaxLon, b.west, b.east);
    ClampMonotone(MinLat, MaxLat, b.south, b.north);
    r
  }

  /** Clamping never reverses the order of two values. */
  lemma ClampMonotone(lo: real, hi: real, x: real, y: real)
    requires lo <= hi
    ensures x <= y ==> ClampTo(lo, hi, x) <= ClampTo(lo, hi, y)
  {
  }

  /** `normalized().clamp()`, the form of the box every query uses. */
  function Canonical(b: BBox): (r: BBox)
    ensures Ordered(r) && InRange(r)
    ensures InRange(b) ==> r == Normalized(b)
    ensures Ordered(b) && InRange(b) ==> r == b
  {
    Clamp(Normalized(b))
  }

  lemma CanonicalIdempotent(b: BBox)
    ensures Canonical(Canonical(b)) == Canonical(b)
  {
  }

  /** Width times height; meaningful for an ordered box. */
  function Extent(c: BBox): real {
    (c.east - c.west) * (c.north - c.south)
  }

  /** `approx_area_deg2()`: width times height of the canonical box, floored at 0. */
  function ApproxArea(b: BBox): (r: real)
    ensures 0.0 <= r <= (MaxLon - MinLon) * (MaxLat - MinLat)
    ensures b.west == b.east || b.south == b.north ==> r == 0.0
    ensures InRange(b) ==> r == Abs(b.east - b.west) * Abs(b.north - b.south)
  {
    var c := Canonical(b);
    ExtentFacts(b, c);
    Max(0.0, Extent(c))
  }

  lemma ExtentFacts(b: BBox, c: BBox)
    requires c == Canonical(b)
    ensures 0.0 <= Extent(c) <= (MaxLon - MinLon) * (MaxLat - MinLat)
    ensures b.west == b.east || b.south == b.north ==> Extent(c) == 0.0
    ensures InRange(b) ==> Extent(c) == Abs(b.east - b.west) * Abs(b.north - b.south)
  {
    ExtentBounded(c);
    if b.west == b.east || b.south == b.north {
      assert c.west == c.east || c.south == c.north;
      ExtentFlat(c);
    }
    if InRange(b) {
      assert Normalized(b) == c;
    }
  }

  lemma ExtentBounded(c: BBox)
    requires Ordered(c) && InRange(c)
    ensures 0.0 <= Extent(c) <= (MaxLon - MinLon) * (MaxLat - MinLat)
  {
    MulBounded(c.east - c.west, MaxLon - MinLon, c.north - c.south, MaxLat - MinLat);
  }

  lemma ExtentFlat(c: BBox)
    requires c.west == c.east || c.south == c.north
    ensures Extent(c) == 0.0
  {
  }

  /** A product of two bounded non-negative factors is bounded by the product of the bounds. */
  lemma MulBounded(a: real, amax: real, b: real, bmax: real)
    requires 0.0 <= a <= amax
    requires 0.0 <= b <= bmax
    ensures 0.0 <= a * b <= amax * bmax
  {
    assert a * b <= amax * b;
    assert amax * b <= amax * bmax;
  }

  /** Canonical box `inner` lies within canonical box `outer`. */
  predicate Within(inner: BBox, outer: BBox) {
    && outer.west <= inner.west && inner.east <= outer.east
    && outer.south <= inner.south && inner.north <= outer.north
  }

  /** A viewport whose canonical box lies inside another's never has a larger area. */
  lemma AreaMonotone(inner: BBox, outer: BBox)
    requires Within(Canonical(inner), Canonical(outer))
    ensures ApproxArea(inner) <= ApproxArea(outer)
  {
    var i, o := Canonical(inner), Canonical(outer);
    ExtentBounded(i);
    ExtentBounded(o);
    ExtentMonotone(i, o);
  }

  lemma ExtentMonotone(i: BBox, o: BBox)
    requires Ordered(i) && Within(i, o)
    ensures Extent(i) <= Extent(o)
  {
    MulBounded(i.east - i.west, o.east - o.west, i.north - i.south, o.north - o.south);
  }

  /** `to_envelope()`: the box's four bounds under the envelope's key names. */
  function ToEnvelope(b: BBox): (e: Envelope)
    ensures EnvelopeBox(e) == b
    ensures Ordered(b) && InRange(b) ==> ValidEnvelope(e)
  {
    Envelope(b.west, b.south, b.east, b.north)
  }

  /** Reads a box back from an envelope. */
  function EnvelopeBox(e: Envelope): BBox {
    BBox(e.xmin, e.ymin, e.xmax, e.ymax)
  }

  /** The envelope a query sends is valid, and boxes that differ only in
      corner order produce the same envelope. */
  lemma QueryEnvelopeValid(b: BBox)
    ensures ValidEnvelope(ToEnvelope(Canonical(b)))
    ensures ToEnvelope(Canonical(BBox(b.east, b.north, b.west, b.south))) == ToEnvelope(Canonical(b))
  {
    var flipped := BBox(b.east, b.north, b.west, b.south);
    assert Normalized(flipped) == Normalized(b);
  }
}

=== FILE: paging.dfy ===
/** Count-then-paginate retrieval (`fetch_features_geojson` in app.py): ask
    the service how many features match, plan page windows that cover
    `min(total, max_features)` records, request them in order, stop once
    enough features have arrived, and cut the result to the target. */
module Paging {
  import opened Results
  import opened ArcGis

  /** `page_size`'s default. */
  const DefaultPageSize: int := 1000

  /** The slice of the matching records one page request asks for. */
  datatype Window = Window(offset: int, count: int)

  function MinInt(a: int, b: int): int {
    if a < b then a else b
  }

  function MaxInt(a: int, b: int): int {
    if a < b then b else a
  }

  /** `target = min(total, max_features)`. */
  function Target(total: int, maxFeatures: int): (t: int)
    ensures t <= total && t <= maxFeatures
    ensures t == total || t == maxFeatures
  {
    MinInt(total, maxFeatures)
  }

  /** `int(math.ceil(target / page_size))`, in exact arithmetic: the number
      of pages of `pageSize` records that just covers `target` records. */
  function PageCount(target: int, pageSize: int): (pages: int)
    requires pageSize > 0
    ensures (pages - 1) * pageSize < target <= pages * pageSize
  {
    // Dafny's division is Euclidean, which for a positive divisor is floor
    // division, and ceil(t / p) == -floor(-t / p).
    var q, r := (-target) / pageSize, (-target) % pageSize;
    assert -target == q * pageSize + r && 0 <= r < pageSize;
    assert (-q) * pageSize == target + r;
    -q
  }

  /** Page i of the loop: `offset = i * page_size`, `rc = min(page_size, target - offset)`. */
  function PageWindow(i: int, pageSize: int, target: int): Window {
    Window(i * pageSize, MinInt(pageSize, target - i * pageSize))
  }

  /** The windows of `range(pages)`, in request order. */
  function Plan(target: int, pageSize: int): (plan: seq<Window>)
    requires pageSize > 0
    ensures |plan| == MaxInt(0, PageCount(target, pageSize))
    ensures |plan| == 0 <==> target <= 0
    ensures forall i | 0 <= i < |plan| :: plan[i].offset == i * pageSize
    ensures forall i | 0 <= i < |plan| :: 1 <= plan[i].count <= pageSize
    ensures forall i | 0 <= i < |plan| :: plan[i].offset + plan[i].count <= target
    ensures forall i | 0 <= i < |plan| - 1 :: plan[i].count == pageSize
  {
    var pages := PageCount(target, pageSize);
    var n := MaxInt(0, pages);
    var plan := seq(n, i requires 0 <= i < n => PageWindow(i, pageSize, target));
    NoPagesIffNoTarget(target, pageSize);
    forall i | 0 <= i < n
      ensures 1 <= plan[i].count <= pageSize
      ensures plan[i].offset + plan[i].count <= target
      ensures i < n - 1 ==> plan[i].count == pageSize
    {
      PageWindowFits(i, pageSize, target);
    }
    plan
  }

  /** Every window of the loop is non-empty, at most a page, ends by the
      target, and is a full page unless it is the last. */
  lemma PageWindowFits(i: int, pageSize: int, target: int)
    requires pageSize > 0
    requires 0 <= i < PageCount(target, pageSize)
    ensures var w := PageWindow(i, pageSize, target);
            && 1 <= w.count <= pageSize
            && w.offset + w.count <= target
            && (i < PageCount(target, pageSize) - 1 ==> w.count == pageSize)
  {
    var n := PageCount(target, pageSize);
    MulMonotone(i, n - 1, pageSize);
    if i < n - 1 {
      MulMonotone(i + 1, n - 1, pageSize);
      assert (i + 1) * pageSize == i * pageSize + pageSize;
    }
  }

  /** `range(pages)` is empty exactly when the target is not positive. */
  lemma NoPagesIffNoTarget(target: int, pageSize: int)
    requires pageSize > 0
    ensures PageCount(target, pageSize) <= 0 <==> target <= 0
  {
    var pages := PageCount(target, pageSize);
    if 1 <= pages {
      MulMonotone(0, pages - 1, pageSize);
    } else {
      MulMonotone(pages, 0, pageSize);
    }
  }

  lemma MulMonotone(a: int, b: int, c: int)
    requires a <= b && 0 <= c
    ensures a * c <= b * c
  {
  }

  /** The total number of records a sequence of windows asks for. */
  function Requested(ws: seq<Window>): int {
    if ws == [] then 0 else Requested(ws[..|ws| - 1]) + ws[|ws| - 1].count
  }

  /** The first k pages ask for `min(k * page_size, target)` records. */
  lemma {:induction false} PlanPrefixRequests(target: int, pageSize: int, k: nat)
    requires pageSize > 0
    requires k <= |Plan(target, pageSize)|
    ensures Requested(Plan(target, pageSize)[..k]) == MinInt(k * pageSize, MaxInt(0, target))
  {
    var plan := Plan(target, pageSize);
    if k > 0 {
      PlanPrefixRequests(target, pageSize, k - 1);
      assert plan[..k][..k - 1] == plan[..k - 1];
      assert Requested(plan[..k]) == Requested(plan[..k - 1]) + plan[k - 1].count;
      MulMonotone(k - 1, |plan| - 1, pageSize);
      assert (k - 1) * pageSize < target;
      assert plan[k - 1].count == MinInt(pageSize, target - (k - 1) * pageSize);
      assert (k - 1) * pageSize + pageSize == k * pageSize;
    }
  }

  /** The planned pages together ask for exactly the target number of
      records: no record is asked for twice, none is skipped. */
  lemma PlanCoversTarget(target: int, pageSize: int)
    requires pageSize > 0
    ensures Requested(Plan(target, pageSize)) == MaxInt(0, target)
  {
    var plan := Plan(target, pageSize);
    PlanPrefixRequests(target, pageSize, |plan|);
    assert plan[..|plan|] == plan;
    if |plan| > 0 {
      assert target <= |plan| * pageSize;
    }
  }

  /** The page requests of a plan, in order. */
  function PlannedRequests(q: FeatureQuery, plan: seq<Window>): (reqs: seq<Request>)
    ensures |reqs| == |plan|
    ensures forall i | 0 <= i < |plan| :: reqs[i] == PageRequest(q, plan[i].count, plan[i].offset)
  {
    seq(|plan|, i requires 0 <= i < |plan| => PageRequest(q, plan[i].count, plan[i].offset))
  }

  /** The features of one page reply; a failed reply has none (the fetch
      aborts on it, so it never contributes). */
  function Chunk(reply: Reply): seq<Feature> {
    match reply
    case Ok(_) => FeaturesOf(reply)
    case Failed(_) => []
  }

  /** The page replies' features concatenated in request order (`features.extend(...)`). */
  function Gathered(service: Service, pages: seq<Request>): seq<Feature> {
    if pages == [] then []
    else Gathered(service, pages[..|pages| - 1]) + Chunk(service(pages[|pages| - 1]))
  }

  lemma GatheredSnoc(service: Service, pages: seq<Request>, req: Request)
    ensures Gathered(service, pages + [req]) == Gathered(service, pages) + Chunk(service(req))
  {
    assert (pages + [req])[..|pages|] == pages;
  }

  /** `extend` only appends: the features of the first k pages stay, in
      order, at the front of everything gathered. */
  lemma {:induction false} GatheredPrefix(service: Service, pages: seq<Request>, k: nat)
    requires k <= |pages|
    ensures Gathered(service, pages[..k]) <= Gathered(service, pages)
  {
    if k < |pages| {
      var init := pages[..|pages| - 1];
      GatheredPrefix(service, init, k);
      assert init[..k] == pages[..k];
    } else {
      assert pages[..k] == pages;
    }
  }

  /** Every page before the last was requested while the gathered features
      were still short of the target (the loop had not yet broken out). */
  predicate ShortBeforeEachPage(service: Service, pages: seq<Request>, target: int) {
    forall k | 0 < k < |pages| :: |Gathered(service, pages[..k])| < target
  }

  lemma ShortBeforeSnoc(service: Service, pages: seq<Request>, req: Request, target: int)
    requires ShortBeforeEachPage(service, pages, target)
    requires pages == [] || |Gathered(service, pages)| < target
    ensures ShortBeforeEachPage(service, pages + [req], target)
  {
    var longer := pages + [req];
    forall k | 0 < k < |longer|
      ensures |Gathered(service, longer[..k])| < target
    {
      assert longer[..k] == pages[..k];
      assert k == |pages| ==> pages[..k] == pages;
    }
  }

  /** Python's `s[:n]`: the first n elements, or all but the last -n when n is negative. */
  function Take<T>(s: seq<T>, n: int): (r: seq<T>)
    ensures r <= s
    ensures 0 <= n ==> |r| == MinInt(n, |s|)
  {
    if 0 <= n then s[..MinInt(n, |s|)] else s[..MaxInt(0, |s| + n)]
  }

  /** Every planned page is answered with at least the records it asked for. */
  predicate Serves(service: Service, q: FeatureQuery, plan: seq<Window>) {
    forall i | 0 <= i < |plan| ::
      var reply := service(PageRequest(q, plan[i].count, plan[i].offset));
      reply.Ok? && |Chunk(reply)| >= plan[i].count
  }

  /** A service that answers every page of a plan in full delivers at least
      as many features as the plan asks for. */
  lemma {:induction false} ServedInFull(service: Service, q: FeatureQuery, plan: seq<Window>)
    requires Serves(service, q, plan)
    ensures |Gathered(service, PlannedRequests(q, plan))| >= Requested(plan)
  {
    if plan != [] {
      var n := |plan| - 1;
      var reqs := PlannedRequests(q, plan);
      ServedInFull(service, q, plan[..n]);
      assert PlannedRequests(q, plan[..n]) == reqs[..n];
      assert reqs[n] == PageRequest(q, plan[n].count, plan[n].offset);
    }
  }

  lemma ServedPagesSucceed(service: Service, q: FeatureQuery, plan: seq<Window>)
    requires Serves(service, q, plan)
    ensures forall k | 0 <= k < |PlannedRequests(q, plan)| :: service(PlannedRequests(q, plan)[k]).Ok?
  {
  }

  /** When every page is answered in full, the gathered features reach the
      target, so the cut result has exactly `target` features. */
  lemma ServedFetchIsExact(service: Service, q: FeatureQuery, target: int, pageSize: int,
                           pages: seq<Request>, features: seq<Feature>)
    requires pageSize > 0
    requires Serves(service, q, Plan(target, pageSize))
    requires |pages| <= |Plan(target, pageSize)|
    requires pages == PlannedRequests(q, Plan(target, pageSize))[..|pages|]
    requires features == Gathered(service, pages)
    requires |pages| == |Plan(target, pageSize)| || |features| >= target
    ensures |Take(features, target)| == MaxInt(0, target)
  {
    var plan := Plan(target, pageSize);
    if target <= 0 {
      assert features == [];
    } else if |pages| == |plan| {
      assert pages == PlannedRequests(q, plan);
      ServedInFull(service, q, plan);
      PlanCoversTarget(target, pageSize);
      assert |features| >= target;
    }
  }

  /** The loop of lines 151-166: send the page requests in order, append
      each reply's features, and break after the page that brings the
      gathered features to the target; the first failed request aborts. */
  method RequestPages(service: Service, reqs: seq<Request>, target: int)
    returns (outcome: Result<seq<Feature>, FetchError>, pages: seq<Request>)
    // the requests sent are the first |pages| of reqs, in order
    ensures |pages| <= |reqs| && pages == reqs[..|pages|]
    // every request but the last succeeded, and each later page was sent while still short of the target
    ensures forall k | 0 <= k < |pages| - 1 :: service(pages[k]).Ok?
    ensures ShortBeforeEachPage(service, pages, target)
    // the first request is always sent, whatever the target
    ensures reqs != [] ==> pages != []
    // a failed request aborts with that request's error
    ensures outcome.Failure? ==> 0 < |pages| && service(pages[|pages| - 1]) == Failed(outcome.error)
    // otherwise all replies were successful and their features are kept in order
    ensures outcome.Success? ==> forall k | 0 <= k < |pages| :: service(pages[k]).Ok?
    ensures outcome.Success? ==> outcome.value == Gathered(service, pages)
    ensures outcome.Success? ==> |pages| == |reqs| || |outcome.value| >= target
    // if every request succeeds, so does the loop
    ensures (forall k | 0 <= k < |reqs| :: service(reqs[k]).Ok?) ==> outcome.Success?
  {
    var features: seq<Feature> := [];
    pages := [];
    var i := 0;
    while i < |reqs|
      invariant 0 <= i <= |reqs|
      invariant pages == reqs[..i]
      invariant forall k | 0 <= k < i :: service(pages[k]).Ok?
      invariant features == Gathered(service, pages)
      invariant ShortBeforeEachPage(service, pages, target)
      invariant pages == [] || |features| < target
    {
      var req := reqs[i];
      var before := pages;
      pages := pages + [req];
      assert pages == reqs[..i + 1];
      GatheredSnoc(service, before, req);
      ShortBeforeSnoc(service, before, req, target);
      var reply := service(req);
      if reply.Failed? {
        outcome := Failure(reply.error);
        return;
      }
      features := features + Chunk(reply);
      i := i + 1;
      if |features| >= target {
        break;
      }
    }
    outcome := Success(features);
  }

  /** What lines 148-168 promise once the target is known: the page
      requests sent are the first planned ones, in order, each later one
      sent while the gathered features were still short of the target; a
      failed page aborts with its error; otherwise every page succeeded,
      the loop ran out of pages or reached the target, and the result is
      the gathered features cut to the target. */
  predicate PagesFetched(service: Service, q: FeatureQuery, target: int, pageSize: int,
                         pages: seq<Request>, result: Result<seq<Feature>, FetchError>)
    requires pageSize > 0
  {
    var planned := PlannedRequests(q, Plan(target, pageSize));
    && |pages| <= |planned|
    && pages == planned[..|pages|]
    && ShortBeforeEachPage(service, pages, target)
    // the fetch stops at the first failed page: every page before the last succeeded
    && (forall k | 0 <= k < |pages| - 1 :: service(pages[k]).Ok?)
    && (result.Failure? ==> 0 < |pages| && service(pages[|pages| - 1]) == Failed(result.error))
    && (result.Success? ==> forall k | 0 <= k < |pages| :: service(pages[k]).Ok?)
    && (result.Success? ==> |pages| == |planned| || |Gathered(service, pages)| >= target)
    && (result.Success? ==> result.value == Take(Gathered(service, pages), target))
    && (result.Success? ==> |result.value| <= MaxInt(0, target))
    // a service that answers every page in full yields exactly the target
    && (Serves(service, q, Plan(target, pageSize)) ==>
          result.Success? && |result.value| == MaxInt(0, target))
  }

  /** Lines 148-168 once the target is known: request the planned pages for
      `target` features and cut what they return to the target. */
  method FetchPages(service: Service, q: FeatureQuery, target: int, pageSize: int)
    returns (result: Result<seq<Feature>, FetchError>, pages: seq<Request>)
    requires pageSize > 0
    ensures PagesFetched(service, q, target, pageSize, pages, result)
  {
    var plan := Plan(target, pageSize);
    var planned := PlannedRequests(q, plan);
    var outcome;
    outcome, pages := RequestPages(service, planned, target);
    if Serves(service, q, plan) {
      ServedPagesSucceed(service, q, plan);
      if outcome.Success? {
        ServedFetchIsExact(service, q, target, pageSize, pages, outcome.value);
      }
    }
    match outcome
    case Failure(e) => result := Failure(e);
    case Success(features) => result := Success(Take(features, target));
  }

  /** `fetch_features_geojson`: count first; no match gives an empty
      collection without any page request; otherwise request the planned
      pages for `min(total, max_features)` features and return the first
      `target` features gathered. */
  method FetchFeatures(service: Service, q: FeatureQuery, maxFeatures: int, pageSize: int)
    returns (result: Result<seq<Feature>, FetchError>, sent: seq<Request>)
    requires pageSize > 0
    // the count query goes first, and a failure there aborts
    ensures 1 <= |sent| && sent[0] == CountRequest(q)
    ensures CountFeatures(service, q).Failure? ==>
              |sent| == 1 && result == Failure(CountFeatures(service, q).error)
    // no match: an empty collection and no page request
    ensures CountFeatures(service, q).Success? && CountFeatures(service, q).value <= 0 ==>
              |sent| == 1 && result == Success([])
    // otherwise the requests after the count are the page loop's for `min(total, max_features)`
    ensures CountFeatures(service, q).Success? ==>
              PagesFetched(service, q, Target(CountFeatures(service, q).value, maxFeatures), pageSize,
                           sent[1..], result)
  {
    sent := [CountRequest(q)];
    var counted := CountFeatures(service, q);
    if counted.Failure? {
      result := Failure(counted.error);
      return;
    }
    var total := counted.value;
    if total <= 0 {
      result := Success([]);
      assert sent[1..] == [];
      return;
    }
    var pages;
    result, pages := FetchPages(service, q, Target(total, maxFeatures), pageSize);
    sent := sent + pages;
    assert sent[1..] == pages;
  }

  /** Worked example: 1200 matches, a cap of 500 and pages of 1000 give one
      request for 500 records at offset 0. */
  lemma OnePartialPage()
    ensures Plan(Target(1200, 500), DefaultPageSize) == [Window(0, 500)]
  {
  }

  /** Worked example: 10000 matches, a cap of 2500 and pages of 1000 give
      requests at offsets 0, 1000, 2000 for 1000, 1000 and 500 records. */
  lemma ThreePages()
    ensures Plan(Target(10000, 2500), DefaultPageSize) == [Window(0, 1000), Window(1000, 1000), Window(2000, 500)]
  {
  }
}

=== FILE: results.dfy ===
/** Optional values and success/failure results shared by the other modules. */
module Results {

  /** A value that may be absent, as a missing key in a JSON reply. */
  datatype Option<+T> = None | Some(value: T) {

    /** The value when present, the given default otherwise (Python's `dict.get(key, default)`). */
    function GetOr(default: T): T {
      match this
      case Some(v) => v
      case None => default
    }
  }

  /** The outcome of an operation that can fail with an error of type E. */
  datatype Result<+T, +E> = Success(value: T) | Failure(error: E)
}

=== FILE: stringorder.dfy ===
/** Python's ordering of `str` values and `sorted(set(xs))` over it. */
module StringOrder {

  /** `a < b` on Python strings: compare code point by code point; a proper
      prefix comes first. */
  predicate Less(a: string, b: string) {
    if a == [] then b != []
    else b != [] && (a[0] < b[0] || (a[0] == b[0] && Less(a[1..], b[1..])))
  }

  lemma LessIrreflexive(a: string)
    ensures !Less(a, a)
  {
  }

  lemma {:induction false} LessTransitive(a: string, b: string, c: string)
    requires Less(a, b) && Less(b, c)
    ensures Less(a, c)
  {
    if a != [] && a[0] == b[0] && b[0] == c[0] {
      LessTransitive(a[1..], b[1..], c[1..]);
    }
  }

  /** Any two different strings are ordered one way, and only one way. */
  lemma {:induction false} LessTotal(a: string, b: string)
    ensures a == b || Less(a, b) || Less(b, a)
    ensures !(Less(a, b) && Less(b, a))
  {
    if a != [] && b != [] && a[0] == b[0] {
      LessTotal(a[1..], b[1..]);
      assert a == [a[0]] + a[1..] && b == [b[0]] + b[1..];
    }
  }

  /** Ascending without repeats. */
  predicate StrictlySorted(s: seq<string>) {
    forall i, j | 0 <= i < j < |s| :: Less(s[i], s[j])
  }

  /** Putting a value below every element of a strictly sorted list keeps it strictly sorted. */
  lemma ConsSorted(x: string, s: seq<string>)
    requires StrictlySorted(s)
    requires forall y | y in s :: Less(x, y)
    ensures StrictlySorted([x] + s)
  {
    var r := [x] + s;
    forall i, j | 0 <= i < j < |r|
      ensures Less(r[i], r[j])
    {
      if i > 0 {
        assert r[i] == s[i - 1] && r[j] == s[j - 1];
      } else {
        assert r[j] in s;
      }
    }
  }

  /** A value below the head of a strictly sorted list is below all of it. */
  lemma BelowHead(x: string, s: seq<string>)
    requires StrictlySorted(s) && s != []
    requires Less(x, s[0])
    ensures forall y | y in s :: Less(x, y)
  {
    forall y | y in s
      ensures Less(x, y)
    {
      var j :| 0 <= j < |s| && s[j] == y;
      if j > 0 {
        LessTransitive(x, s[0], y);
      }
    }
  }

  /** Inserts x into a strictly sorted list unless it is already there. */
  function Insert(x: string, s: seq<string>): (r: seq<string>)
    requires StrictlySorted(s)
    ensures StrictlySorted(r)
    ensures forall y :: y in r <==> y == x || y in s
  {
    if s == [] then [x]
    else if x == s[0] then s
    else if Less(x, s[0]) then
      BelowHead(x, s);
      ConsSorted(x, s);
      [x] + s
    else
      LessTotal(x, s[0]);
      var t := Insert(x, s[1..]);
      assert forall y | y in s[1..] :: Less(s[0], y);
      ConsSorted(s[0], t);
      assert s == [s[0]] + s[1..];
      [s[0]] + t
  }

  /** `sorted(set(xs))`: the distinct values of xs in ascending order. */
  function SortedDistinct(xs: seq<string>): (r: seq<string>)
    ensures StrictlySorted(r)
    ensures forall y :: y in r <==> y in xs
  {
    if xs == [] then []
    else
      var r := Insert(xs[|xs| - 1], SortedDistinct(xs[..|xs| - 1]));
      assert xs == xs[..|xs| - 1] + [xs[|xs| - 1]];
      r
  }

  /** A strictly sorted list is determined by its elements. */
  lemma {:induction false} SortedUnique(a: seq<string>, b: seq<string>)
    requires StrictlySorted(a) && StrictlySorted(b)
    requires forall y :: y in a <==> y in b
    ensures a == b
  {
    assert a != [] ==> a[0] in b;
    assert b != [] ==> b[0] in a;
    if a != [] && b != [] {
      if a[0] != b[0] {
        assert a[0] in b && b[0] in a;
        var i :| 0 <= i < |a| && a[i] == b[0];
        var j :| 0 <= j < |b| && b[j] == a[0];
        assert Less(a[0], b[0]) && Less(b[0], a[0]);
        LessTotal(a[0], b[0]);
      }
      forall y
        ensures y in a[1..] <==> y in b[1..]
      {
        if y in a[1..] {
          var i :| 1 <= i < |a| && a[i] == y;
          LessIrreflexive(a[0]);
          assert y in b && y != b[0];
          assert b == [b[0]] + b[1..];
        }
        if y in b[1..] {
          var j :| 1 <= j < |b| && b[j] == y;
          LessIrreflexive(b[0]);
          assert y in a && y != a[0];
          assert a == [a[0]] + a[1..];
        }
      }
      SortedUnique(a[1..], b[1..]);
      assert a == [a[0]] + a[1..] && b == [b[0]] + b[1..];
    }
  }
}

=== FILE: text.dfy ===
/** The string operations the query builders use: `str.join`, its inverse
    `str.split`, and upper-casing. */
module Text {

  /** `sep.join(parts)`: the first part opens the result. */
  function Join(sep: string, parts: seq<string>): (r: string)
    ensures |parts| == 0 ==> r == ""
    ensures 1 <= |parts| ==> |parts[0]| <= |r| && r[..|parts[0]|] == parts[0]
  {
    if |parts| == 0 then ""
    else if |parts| == 1 then parts[0]
    else parts[0] + sep + Join(sep, parts[1..])
  }

  /** What follows the first part in `sep.join(parts)`: nothing for a
      single part, otherwise the separator and the remaining parts joined. */
  function JoinRest(sep: string, parts: seq<string>): (tail: string)
    requires 1 <= |parts|
    ensures Join(sep, parts) == parts[0] + tail
    ensures |parts| == 1 ==> tail == ""
    ensures 1 < |parts| ==> |sep| <= |tail| && tail[..|sep|] == sep
  {
    if |parts| == 1 then "" else sep + Join(sep, parts[1..])
  }

  /** `s.split(c)` for a one-character separator; as in Python, the empty
      string splits into one empty piece. */
  function Split(c: char, s: string): (pieces: seq<string>)
    ensures 1 <= |pieces|
  {
    if s == [] then [""]
    else if s[0] == c then [""] + Split(c, s[1..])
    else
      var rest := Split(c, s[1..]);
      [[s[0]] + rest[0]] + rest[1..]
  }

  /** Text free of the separator sticks to the front of the first piece. */
  lemma {:induction false} SplitPrefix(c: char, p: string, s: string)
    requires c !in p
    ensures Split(c, p + s) == [p + Split(c, s)[0]] + Split(c, s)[1..]
  {
    var pieces := Split(c, s);
    if p == [] {
      assert p + s == s && p + pieces[0] == pieces[0];
      assert [pieces[0]] + pieces[1..] == pieces;
    } else {
      SplitPrefix(c, p[1..], s);
      assert (p + s)[0] == p[0] != c;
      assert (p + s)[1..] == p[1..] + s;
      var rest := Split(c, p[1..] + s);
      assert rest == [p[1..] + pieces[0]] + pieces[1..];
      assert Split(c, p + s) == [[p[0]] + rest[0]] + rest[1..];
      assert [p[0]] + (p[1..] + pieces[0]) == p + pieces[0];
    }
  }

  /** Splitting undoes joining when no part contains the separator. */
  lemma {:induction false} SplitJoin(c: char, parts: seq<string>)
    requires 1 <= |parts|
    requires forall i | 0 <= i < |parts| :: c !in parts[i]
    ensures Split(c, Join([c], parts)) == parts
  {
    if |parts| == 1 {
      SplitPrefix(c, parts[0], "");
      assert parts[0] + "" == parts[0];
    } else {
      var tail := Join([c], parts[1..]);
      SplitJoin(c, parts[1..]);
      assert Join([c], parts) == parts[0] + ([c] + tail);
      SplitPrefix(c, parts[0], [c] + tail);
      assert ([c] + tail)[0] == c;
      assert ([c] + tail)[1..] == tail;
      assert Split(c, [c] + tail) == [""] + parts[1..];
      assert parts[0] + "" == parts[0];
      assert parts == [parts[0]] + parts[1..];
    }
  }

  /** ASCII upper-casing of one character. */
  function UpperChar(ch: char): char {
    if 'a' <= ch <= 'z' then (ch as int - 32) as char else ch
  }

  /** `s.upper()` restricted to ASCII letters. */
  function AsciiUpper(s: string): (r: string)
    ensures |r| == |s|
    ensures forall i | 0 <= i < |s| :: r[i] == UpperChar(s[i])
  {
    seq(|s|, i requires 0 <= i < |s| => UpperChar(s[i]))
  }

  /** Upper-casing works character by character, so it distributes over concatenation. */
  lemma UpperAppend(a: string, b: string)
    ensures AsciiUpper(a + b) == AsciiUpper(a) + AsciiUpper(b)
  {
  }
}

=== FILE: viewport.dfy ===
/** The viewport gate in `main` (app.py): features are fetched only when the
    map is zoomed in far enough and the visible box is small enough, and the
    query sent then carries the filters built from the sidebar. */
module Viewport {
  import opened Results
  import opened Geo
  import opened ArcGis
  import opened Filters

  /** Why the view does or does not load features. */
  datatype Decision = Proceed | TooFarZoomedOut | ViewportTooLarge

  /** The largest visible area, in square degrees, that still loads features. */
  const MaxViewportArea: real := 2.0

  /** The two `st.stop()` guards, checked in source order. A present box is
      always truthy (a dataclass defines no `__bool__`), so `if bbox` tests
      only that the map reported bounds. */
  function ShouldFetch(currentZoom: int, minZoom: int, bbox: Option<BBox>): (d: Decision)
    ensures d == TooFarZoomedOut <==> currentZoom < minZoom
    ensures d == ViewportTooLarge <==>
              minZoom <= currentZoom && bbox.Some? && ApproxArea(bbox.value) > MaxViewportArea
    ensures d == Proceed <==>
              minZoom <= currentZoom && (bbox.None? || ApproxArea(bbox.value) <= MaxViewportArea)
  {
    if currentZoom < minZoom then TooFarZoomedOut
    else if bbox.Some? && ApproxArea(bbox.value) > MaxViewportArea then ViewportTooLarge
    else Proceed
  }

  /** `DEFAULT_POINTS_LAYER_URL`: the public NYS tax-parcel centroid layer. */
  const DefaultPointsLayerUrl: string :=
    "https://gisservices.its.ny.gov/arcgis/rest/services/NYS_Tax_Parcel_Centroid_Points/FeatureServer/0"

  /** The "Layer type" radio: the public centroid points, or a polygon layer
      whose URL the user types in. */
  datatype LayerMode = CentroidPoints | Polygons(url: string)

  /** `layer_url` as the sidebar sets it for the chosen mode. */
  function LayerUrl(mode: LayerMode): string {
    match mode
    case CentroidPoints => DefaultPointsLayerUrl
    case Polygons(url) => url
  }

  /** The sidebar inputs the query is built from. */
  datatype Sidebar = Sidebar(mode: LayerMode, county: string, ownerSearch: string,
                             addrSearch: string, popupFields: seq<string>)

  /** The query `main` hands to `fetch_features_geojson` for the current
      view, or None when a guard stops the run first: a polygon layer
      without a URL, then the zoom and area guards. */
  function ViewQuery(s: Sidebar, currentZoom: int, minZoom: int, bbox: Option<BBox>): (q: Option<FeatureQuery>)
    ensures q.Some? <==> LayerUrl(s.mode) != "" && ShouldFetch(currentZoom, minZoom, bbox) == Proceed
    ensures q.Some? ==> q.value.layerUrl == LayerUrl(s.mode) && q.value.bbox == bbox
    ensures q.Some? ==> q.value.where == WhereClause(s.county, s.ownerSearch, s.addrSearch)
    ensures q.Some? ==> q.value.outFields == Filters.OutFields(s.popupFields)
  {
    if s.mode != CentroidPoints && LayerUrl(s.mode) == "" then None
    else if ShouldFetch(currentZoom, minZoom, bbox) != Proceed then None
    else Some(FeatureQuery(LayerUrl(s.mode), WhereClause(s.county, s.ownerSearch, s.addrSearch),
                           Filters.OutFields(s.popupFields), bbox))
  }

  /** A view that loads keeps loading after zooming in further to a box
      inside the old one: neither guard can start to fire. */
  lemma {:induction false} ZoomingInKeepsLoading(zoom: int, zoom': int, minZoom: int, outer: Option<BBox>, inner: Option<BBox>)
    requires ShouldFetch(zoom, minZoom, outer) == Proceed
    requires zoom <= zoom'
    requires inner.Some? ==> outer.Some? && Within(Canonical(inner.value), Canonical(outer.value))
    ensures ShouldFetch(zoom', minZoom, inner) == Proceed
  {
    if inner.Some? {
      AreaMonotone(inner.value, outer.value);
    }
  }

  /** Any view whose box has no width or no height loads once zoomed in enough. */
  lemma FlatViewLoads(zoom: int, minZoom: int, b: BBox)
    requires minZoom <= zoom
    requires b.west == b.east || b.south == b.north
    ensures ShouldFetch(zoom, minZoom, Some(b)) == Proceed
  {
  }

  /** Two views at the default minimum zoom of 13: the default starting zoom
      of 12 is turned away, and a five-degree-wide strip is too large. */
  lemma GateExamples()
    ensures ShouldFetch(12, 13, None) == TooFarZoomedOut
    ensures ShouldFetch(15, 13, Some(BBox(0.0, 0.0, 5.0, 1.0))) == ViewportTooLarge
    ensures ShouldFetch(15, 13, Some(BBox(-73.95, 42.80, -73.93, 42.82))) == Proceed
  {
    var wide := BBox(0.0, 0.0, 5.0, 1.0);
    assert InRange(wide);
    var near := BBox(-73.95, 42.80, -73.93, 42.82);
    assert InRange(near);
  }
}
